=== FILE: README.md ===
# Letters to Santa: queue, scheduler, age check and request schema in Dafny

This project models the core of a small "letters to Santa" backend:

- **Letters** (`letters.dfy`): the letter queue. Letters wait in `pending`. A flush appends them to `sent`, which keeps every letter sent so far. `create` mints an identifier. `createBatch` appends ready-made letters.
- **Scheduler** (`scheduler.dfy`): the dispatch scheduler. It is a stopped/running state machine around one cron job with the expression `0 */N * * * *`. It also has the check routine (`checkAndProcessEmails`) that each cron fire and each `runManualCheck` call run: record the check time, flush the queue if anything is pending, and count what was flushed. A failed flush is turned into a failed result. The scheduler's calls to the cron library are kept as an explicit event log in the state. This is what lets "exactly one job is scheduled" be stated.
- **Authorization** (`authorization.dfy`): `validateUser`. It takes the two fetched lists (or a fetch failure) and today's date. It finds the first user with exactly the requested username, then the first profile whose `userUid` is that user's `uid`. It computes the age with the "birthday not yet reached this year" adjustment and admits only ages below 10. The wrappers `isUserUnder10` and `getUserInfo` are modelled too.
- **Requests** (`requests.dfy`): the body schema for a letter submission. Username must have 1–25 characters, address 1–50 and message 1–100.
- `common.dfy` holds `Option`, `Result` and a first-match search (`Array.prototype.find`). `decimal.dfy` renders naturals as decimal text, as a template literal prints integral numbers below 10^21, and reads such text back.

Every operation is a pure function from the old state (and inputs) to the new state and result. Time stamps, today's date, the outcome of the remote fetches and the outcome of a flush are all parameters.

Points about the code that the model follows:
- The user lookup is a first-match search over the fetched list, not a keyed map.
- The queue's flush performs no email sends and cannot fail. A failing flush exists only as an input to the check routine, and in that case the model leaves the queue unchanged.
- The authorization service reads users by `uid` and `username` and profiles by `userUid`, `address` and a `YYYY/MM/DD` birthdate split into three numbers. The authorization types file and its tests use an older record shape (`id`, `userID`, `name`, dash-separated birthdates); the model follows the service.
- The scheduler's default interval is 15 minutes (src/services/scheduler/index.ts:28), so a default scheduler schedules `0 */15 * * * *`. The scheduler tests expect `0 */1 * * * *`, which matches the 1-minute default left commented out in the code; the model follows the code.

Two consequences of the code are proved rather than changed:
- A birthdate after today gives a negative age (`FutureBirthdateHasNegativeAge`). A negative age is under ten, so such a user is admitted.
- Letters added by `createBatch` keep the identifiers they came with. Distinct identifiers are therefore promised only for letters minted by `create`. For those the promise holds across any run of operations, whatever batches and flushes come between (`Minted`, `MintedIdsDistinct`, `CreatedThenLater`).

## Model

| member | source | states |
|---|---|---|
| Common.FindFirst | src/services/authorization/index.ts:37 | the index returned holds the first element satisfying the predicate: it satisfies it and every earlier element does not; no index means no element satisfies it |
| Decimal.ValueOfShow | src/shared/constants/errorMessages.ts:5 | reading back the decimal text of a number gives that number, so the text printed into messages and cron expressions determines the number |
| Letters.Init | src/services/letters/index.ts:10-13 | a new service holds no pending and no sent letters |
| Letters.Create | src/services/letters/index.ts:15-24 | the returned letter carries the given username, address and message and a fresh identifier; it is appended as the last pending letter; sent is unchanged; the letters held grow by exactly that letter |
| Letters.CreateAll | src/services/letters/index.ts:16-17 | successive creates return letters carrying the given data, in order, with strictly increasing (hence pairwise distinct) identifiers, appended to pending in that order |
| Letters.CreatedIdsDistinct | src/services/letters/index.ts:16-17 | any two letters from successive creates have different identifiers |
| Letters.CreateBatch | src/services/letters/index.ts:26-29 | the batch is returned unchanged and appended to pending after the letters already there; sent is unchanged; no identifier is consumed |
| Letters.NextIdGrows | src/services/letters/index.ts:15-36 | over any sequence of creates, batches and flushes the identifier supply never runs backwards |
| Letters.CreatedThenLater | src/services/letters/index.ts:15-24 | a letter created after any further operations has a larger identifier than one created before them, so the two differ |
| Letters.Minted | src/services/letters/index.ts:15-24 | the letters minted by the creates of any run of operations have fresh identifiers, not below the supply at the start, in strictly increasing order |
| Letters.MintedIdsDistinct | src/services/letters/index.ts:16-17 | any two letters minted by creates anywhere in a run of operations have different identifiers |
| Letters.SendPending | src/services/letters/index.ts:31-36 | pending is emptied; sent becomes old sent followed by old pending; the result is the new sent, with old sent as a prefix; the multiset of held letters is preserved |
| Letters.SendEmptyIsNoOp | src/services/letters/index.ts:31-36 | with nothing pending a flush leaves the queue as it is and returns sent unchanged |
| Letters.SendTwice | src/services/letters/index.ts:31-36 | a second consecutive flush changes nothing and returns the same letters |
| Letters.SentOnlyGrows | src/services/letters/index.ts:33 | over any sequence of creates, batches and flushes, the sent letters before are a prefix of the sent letters after |
| Letters.NothingLost | src/services/letters/index.ts:32-34 | over any sequence of operations every held letter, with its multiplicity, is still held afterwards |
| Letters.FlushesConserve | src/services/letters/index.ts:32-34 | over any sequence of flushes alone the multiset of held letters is exactly preserved |
| Scheduler.Merge | src/services/scheduler/index.ts:92 | each field supplied in the patch replaces the configured one; each field left out keeps its value |
| Scheduler.MergeIdempotent | src/services/scheduler/index.ts:92 | applying the same partial configuration twice is the same as applying it once |
| Scheduler.CronExpression | src/services/scheduler/index.ts:45 | the expression starts with the seconds field `0` and the step prefix `*/`, and ends with the four wildcard fields `* * * *`, and is longer than those fixed parts together; what lies between them is the interval, as `CronExpressionRoundTrip` proves |
| Scheduler.CronExpressionRoundTrip | src/services/scheduler/index.ts:45 | the interval can be read back from the cron expression, so the expression names exactly the configured number of minutes |
| Scheduler.CronExpressionInjective | src/services/scheduler/index.ts:45 | different intervals give different cron expressions |
| Scheduler.DefaultCronExpression | src/services/scheduler/index.ts:45 | the default interval gives `0 */15 * * * *` |
| Scheduler.HalfHourCronExpression | src/services/scheduler/index.ts:45 | thirty minutes give `0 */30 * * * *` |
| Scheduler.Init | src/services/scheduler/index.ts:15-31 | a new scheduler is stopped, holds no job, has no last check, a zero counter and an empty log; its interval is the supplied one or 15, and its enabled flag is the supplied one or true |
| Scheduler.Start | src/services/scheduler/index.ts:34-58 | when already running or disabled nothing changes; otherwise it runs, holds a job for `0 */N * * * *` with N the interval, and the log gains exactly that one scheduling |
| Scheduler.StartIdempotent | src/services/scheduler/index.ts:35-38 | starting twice in a row is the same as starting once, so only one job is scheduled |
| Scheduler.Stop | src/services/scheduler/index.ts:60-67 | it always ends stopped with no job; an existing job is cancelled once in the log; without a job the log is unchanged |
| Scheduler.UpdateConfig | src/services/scheduler/index.ts:85-99 | the configuration becomes the merge; a stopped scheduler schedules nothing and changes no job; a running one ends running with a job for the new interval exactly when the merged configuration is enabled, and otherwise stopped with no job; its log gains the cancellation of the old job (if any) followed by the one new scheduling (if enabled) |
| Scheduler.GetStatus | src/services/scheduler/index.ts:69-78 | the status reports running, last check and counter as held, and a next run exactly while running, later than now |
| Scheduler.GetStatistics | src/services/scheduler/index.ts:132-139 | the statistics agree with the status on running, last check and counter, and carry the configuration |
| Scheduler.CheckAndProcess | src/services/scheduler/index.ts:101-130 | the check time is always recorded; with nothing pending it succeeds with count 0 and leaves queue and counter alone; a successful flush of n letters succeeds with count n and adds n to the counter; a failed flush reports the error message (or "Unknown error"), count 0, and leaves queue and counter unchanged; the counter minus the sent count never changes |
| Scheduler.InitValid | src/services/scheduler/index.ts:15-18 | a new scheduler satisfies the invariant: running exactly with a job, and no live job in the log |
| Scheduler.StartPreservesValid | src/services/scheduler/index.ts:34-58 | start keeps the invariant: at most one live job, scheduled with the configured interval |
| Scheduler.StopPreservesValid | src/services/scheduler/index.ts:60-67 | stop keeps the invariant |
| Scheduler.UpdateConfigPreservesValid | src/services/scheduler/index.ts:85-99 | updating the configuration keeps the invariant, so a running scheduler's job always fires at the current interval |
| Scheduler.ExecAllPreserves | src/services/scheduler/index.ts:34-130 | over any sequence of starts, stops, configuration updates, checks and submissions the invariant holds, and the counter grows by exactly the number of letters moved to sent |
| Scheduler.CounterCountsSent | src/services/scheduler/index.ts:115-117 | from a new scheduler and an empty queue, the counter always equals the number of sent letters |
| Authorization.TooOldMessage | src/shared/constants/errorMessages.ts:5 | the message starts with `User is too old: ` and ends with ` years old`, and is longer than those fixed parts together; what lies between them is the age, as `TooOldMessageNamesAge` proves |
| Authorization.TooOldMessageNamesAge | src/shared/constants/errorMessages.ts:5 | the too-old message carries the computed age, which can be read back from it |
| Authorization.AsConstructed | src/services/authorization/index.ts:61 | the date `new Date(y, m - 1, d)` denotes keeps month and day; a year from 0 to 99 becomes 1900 + y and any other year is kept, so the result never has a year from 0 to 99 |
| Authorization.AsConstructedIdempotent | src/services/authorization/index.ts:61 | constructing a date again from a constructed date changes nothing |
| Authorization.TwoDigitYearExample | src/services/authorization/index.ts:60-71 | a birthdate 0015/06/01 is read as 1915-06-01, giving age 111 on 2026-10-10 |
| Authorization.Age | src/services/authorization/index.ts:63-71 | the age is the number of the last anniversary of the birthdate that is not after today; the next anniversary is after today |
| Authorization.AgeUnique | src/services/authorization/index.ts:63-71 | no other number of years lies between an anniversary reached and the next one not reached |
| Authorization.AgeOnBirthday | src/services/authorization/index.ts:63-71 | on the N-th birthday the age is N; on any earlier day of that year it is N-1 |
| Authorization.FutureBirthdateHasNegativeAge | src/services/authorization/index.ts:63-71 | a birthdate after today gives a negative age |
| Authorization.AgeMonotonic | src/services/authorization/index.ts:63-71 | a later today never gives a smaller age |
| Authorization.FindUser | src/services/authorization/index.ts:37 | the user selected is the first with exactly the requested username; none means no user has it |
| Authorization.FindProfile | src/services/authorization/index.ts:48 | the profile selected is the first whose userUid is the user's uid; none means there is no such profile |
| Authorization.AgeVerdict | src/services/authorization/index.ts:73-91 | an age of 10 or more gives 403 with the too-old message for that age; a lower age is valid with the user's uid and username, that age and the profile's address |
| Authorization.ValidateUser | src/services/authorization/index.ts:11-92 | a failed fetch fails with "Failed to fetch user data"; otherwise: no user with the name gives 404 "User not found"; the first such user without a profile gives 404 "User profile not found"; with the first profile, an age of 10 or more gives 403 with the too-old message for that age, and a lower age is valid with uid, username, age and the profile's address |
| Authorization.IsUserUnder10 | src/services/authorization/index.ts:94-97 | fails exactly when the fetch fails, and is otherwise true exactly for a valid verdict |
| Authorization.GetUserInfo | src/services/authorization/index.ts:99-102 | fails exactly when the fetch fails; otherwise yields a user exactly when the user is under ten, and that user is the validated one |
| Authorization.ValidMeansUnderTen | src/services/authorization/index.ts:73-91 | an admitted user is under ten, carries the requested username, and is the first user listed under it |
| Authorization.ChildAdmitted | src/services/authorization/index.ts:83-91 | an eight-year-old "charlie.brown" is admitted with age 8 and the profile's address |
| Authorization.TeenRefused | src/services/authorization/index.ts:73-81 | a seventeen-year-old is refused with 403 and "User is too old: 17 years old" |
| Requests.FieldIssues | src/shared/types/request.ts:6-17 | a field raises no issue exactly when its length is within its bounds; it raises a too-small issue exactly when empty and a too-big issue exactly when over its maximum |
| Requests.SafeParse | src/shared/types/request.ts:5-18 | a request is accepted, unchanged, exactly when username has 1–25, address 1–50 and message 1–100 characters; a rejection lists at least one issue and exactly the bounds each field violates |
| Requests.OnlyLengthsMatter | src/shared/types/request.ts:5-18 | acceptance depends only on the three lengths, not on the content |

## Left out

- The two network reads are not modelled. Their outcome is an input: both lists, or a failure. A non-success status, a thrown request and a JSON body that fails to parse all count as failure.
- The lists cached on the authorization service are not modelled. Every call re-fetches them before reading them, so the cached values are never observable.
- Birthdate text parsing is not modelled. A profile's birthdate has the type `Birthdate`, whose date as constructed must be a real calendar day in a year from -271820 to 275759. This excludes a `Number()` that gives NaN, and `Date` normalisation of out-of-range months and days (such as day 40 of January rolling over into February). The mapping of years 0–99 to 1900–1999 by the `Date` constructor is modelled.
- Authorization.ValidateUser: birthdates beyond the range a JavaScript `Date` can hold are not modelled. There `new Date` gives an Invalid Date, the age is NaN, `NaN >= 10` is false and the user is admitted with age NaN. The exact edge of that range depends on the time zone, so the `Birthdate` type keeps only the whole years that every time zone can represent.
- Wall-clock time is not modelled. `new Date()` for today, for the last check and for the next run is a caller-supplied parameter.
- Scheduler.GetStatus: the next-run value is stated only as later than now (for a positive interval), because it is a wall-clock approximation.
- Cron firing, timing and the library's validation of expressions are not modelled. An interval of 0, or one above 59, is formatted but never checked.
- `intervalMinutes` is a natural number. Negative and non-integral numbers, which JavaScript would print differently, are not modelled. Neither are numbers of 10^21 and above, which JavaScript prints in exponent form (`1e+21`), nor the loss of exactness above 2^53; `Scheduler.CronExpression` always prints every digit.
- Scheduler.Merge: a partial configuration whose key is present but set to `undefined` would overwrite the field with `undefined` in JavaScript. The model treats it as absent.
- Letter identifiers are natural numbers drawn from a counter in the queue, instead of random uuid strings.
- The `pendingLetters` getter returns the live array. The model reads the `pending` field, so aliasing is not modelled.
- Email sending is not modelled, because the queue's flush sends nothing. A failing flush exists only as the check routine's `FlushOutcome` input.
- Interleaving of a timer fire with a manual check at `await` points is not modelled. Every operation is atomic.
- Console logging is not modelled. Neither is the unused `IncomingEmail` type, nor the unused uuid import in the scheduler.
- The HTTP layer is not modelled: routing, the validation middleware's 400 reply, the error handler and the response types.
- The request schema's error message texts are not modelled. The message keys it references do not exist in the error-message constants, so an issue records only its field and which bound it violates.
- Requests.SafeParse: string length is counted in characters. JavaScript counts UTF-16 code units, so a character outside the Basic Multilingual Plane counts twice there. Non-string field values and unknown keys are not modelled.

=== FILE: authorization.dfy ===
/** Age authorization: join the fetched user and profile lists, compute the submitter's
    age and admit only children under ten. */
module Authorization {
  import opened Common
  import Decimal

  datatype User = User(uid: string, username: string)

  /** A calendar date as (full year, month 1..12, day of month). */
  datatype Date = Date(year: int, month: int, day: int)

  /** A profile. `birthdate` holds the three numbers of the "YYYY/MM/DD" text. */
  datatype UserProfile = UserProfile(userUid: string, address: string, birthdate: Birthdate)

  datatype ValidatedUser = ValidatedUser(uid: string, username: string, age: int, address: string)

  datatype AuthError = AuthError(code: int, message: string)

  /** `{isValid, user?, error?}`: a valid result carries the user, an invalid one the error. */
  datatype ValidationResult = Valid(user: ValidatedUser) | Invalid(error: AuthError) {
    predicate IsValid() { Valid? }
  }

  /** The two remote reads: both answered with a success status, or not. */
  datatype FetchOutcome = Fetched(users: seq<User>, profiles: seq<UserProfile>) | FetchFailed

  const NOT_FOUND := 404
  const FORBIDDEN := 403
  const FETCH_USER_DATA_FAILED := "Failed to fetch user data"
  const USER_NOT_FOUND := "User not found"
  const USER_PROFILE_NOT_FOUND := "User profile not found"
  const TOO_OLD_PREFIX := "User is too old: "
  const TOO_OLD_SUFFIX := " years old"
  const AGE_LIMIT := 10

  /** The too-old message, carrying the computed age. */
  function TooOldMessage(age: nat): (m: string)
    ensures |m| > |TOO_OLD_PREFIX| + |TOO_OLD_SUFFIX|
    ensures m[..|TOO_OLD_PREFIX|] == TOO_OLD_PREFIX
    ensures m[|m| - |TOO_OLD_SUFFIX|..] == TOO_OLD_SUFFIX
  {
    TOO_OLD_PREFIX + Decimal.Show(age) + TOO_OLD_SUFFIX
  }

  /** Recovers the age from a too-old message. */
  function AgeInMessage(m: string): Option<nat> {
    if |m| > |TOO_OLD_PREFIX| + |TOO_OLD_SUFFIX|
       && m[..|TOO_OLD_PREFIX|] == TOO_OLD_PREFIX
       && m[|m| - |TOO_OLD_SUFFIX|..] == TOO_OLD_SUFFIX
       && Decimal.AllDigits(m[|TOO_OLD_PREFIX|..|m| - |TOO_OLD_SUFFIX|])
    then Some(Decimal.ValueOf(m[|TOO_OLD_PREFIX|..|m| - |TOO_OLD_SUFFIX|]))
    else None
  }

  /** The too-old message states exactly the computed age. */
  lemma TooOldMessageNamesAge(age: nat)
    ensures AgeInMessage(TooOldMessage(age)) == Some(age)
  {
    var m := TooOldMessage(age);
    assert m[..|TOO_OLD_PREFIX|] == TOO_OLD_PREFIX;
    assert m[|m| - |TOO_OLD_SUFFIX|..] == TOO_OLD_SUFFIX;
    assert m[|TOO_OLD_PREFIX|..|m| - |TOO_OLD_SUFFIX|] == Decimal.Show(age);
    Decimal.ValueOfShow(age);
  }

  predicate IsLeapYear(y: int) {
    y % 4 == 0 && (y % 100 != 0 || y % 400 == 0)
  }

  function DaysInMonth(year: int, month: int): int
    requires 1 <= month <= 12
  {
    if month == 2 then (if IsLeapYear(year) then 29 else 28)
    else if month == 4 || month == 6 || month == 9 || month == 11 then 30
    else 31
  }

  predicate IsCalendarDate(d: Date) {
    1 <= d.month <= 12 && 1 <= d.day <= DaysInMonth(d.year, d.month)
  }

  /** `new Date(y, m - 1, d)` reads a year from 0 to 99 as 1900 + y. */
  function ConstructedYear(y: int): int {
    if 0 <= y <= 99 then 1900 + y else y
  }

  /** The date `new Date(y, m - 1, d)` denotes. */
  function AsConstructed(d: Date): (r: Date)
    ensures r.month == d.month && r.day == d.day
    ensures 0 <= d.year <= 99 ==> r.year == d.year + 1900
    ensures !(0 <= d.year <= 99) ==> r.year == d.year
    ensures !(0 <= r.year <= 99)
  {
    Date(ConstructedYear(d.year), d.month, d.day)
  }

  /** Constructing a date from a constructed date changes nothing. */
  lemma AsConstructedIdempotent(d: Date)
    ensures AsConstructed(AsConstructed(d)) == AsConstructed(d)
  {
  }

  /** A two-digit year lands in the twentieth century; a birthdate of 0015/06/01 is read as
      1915-06-01, so on 2026-10-10 the user is 111 years old. */
  lemma TwoDigitYearExample()
    ensures AsConstructed(Date(15, 6, 1)) == Date(1915, 6, 1)
    ensures Age(AsConstructed(Date(15, 6, 1)), Date(2026, 10, 10)) == 111
  {
  }

  /** Whole years that a JavaScript `Date` can hold in every time zone: its time value is
      bounded by 8.64e15 ms either side of 1970, roughly years -271821 to 275760. */
  const MIN_DATE_YEAR := -271820
  const MAX_DATE_YEAR := 275759

  /** Birthdates whose constructed date is a real calendar day (no day or month overflow)
      in a year a `Date` can represent. */
  type Birthdate = d: Date | IsCalendarDate(AsConstructed(d))
    && MIN_DATE_YEAR <= AsConstructed(d).year <= MAX_DATE_YEAR
    witness Date(2000, 1, 1)

  /** The current date, as the clock reports it. */
  type Today = d: Date | IsCalendarDate(d) witness Date(2000, 1, 1)

  /** Chronological order on dates, compared field by field. */
  predicate Before(a: Date, b: Date) {
    a.year < b.year
    || (a.year == b.year && (a.month < b.month || (a.month == b.month && a.day < b.day)))
  }

  predicate NotAfter(a: Date, b: Date) {
    a == b || Before(a, b)
  }

  /** The `k`-th anniversary of `d` (a February 29 keeps its day even in common years). */
  function Anniversary(d: Date, k: int): Date {
    Date(d.year + k, d.month, d.day)
  }

  /** Whole years from `birth` to `today`: the year difference, less one while this year's
      birthday is still ahead. It is the number of the last anniversary reached. */
  function Age(birth: Date, today: Date): (age: int)
    ensures NotAfter(Anniversary(birth, age), today)
    ensures Before(today, Anniversary(birth, age + 1))
  {
    var years := today.year - birth.year;
    var monthDiff := today.month - birth.month;
    if monthDiff < 0 || (monthDiff == 0 && today.day < birth.day) then years - 1 else years
  }

  /** The age is the only number of years between the last anniversary reached and the next. */
  lemma AgeUnique(birth: Date, today: Date, k: int)
    requires NotAfter(Anniversary(birth, k), today)
    requires Before(today, Anniversary(birth, k + 1))
    ensures k == Age(birth, today)
  {
  }

  /** On the n-th birthday the age is n; on any earlier day of that year it is n - 1. */
  lemma AgeOnBirthday(birth: Date, today: Date, n: int)
    requires today.year == birth.year + n
    ensures today.month == birth.month && today.day == birth.day ==> Age(birth, today) == n
    ensures Before(today, Anniversary(birth, n)) ==> Age(birth, today) == n - 1
  {
  }

  /** A birthdate later than today gives a negative age, which is below the limit. */
  lemma FutureBirthdateHasNegativeAge(birth: Date, today: Date)
    requires Before(today, birth)
    ensures Age(birth, today) < 0
  {
  }

  /** Ages never go down as time goes on. */
  lemma AgeMonotonic(birth: Date, d1: Date, d2: Date)
    requires NotAfter(d1, d2)
    ensures Age(birth, d1) <= Age(birth, d2)
  {
  }

  /** `i` is the index `find` selects for a user named `name`. */
  ghost predicate FirstUserAt(users: seq<User>, name: string, i: int) {
    0 <= i < |users| && users[i].username == name
    && forall k :: 0 <= k < i ==> users[k].username != name
  }

  /** `j` is the index `find` selects for a profile of user `uid`. */
  ghost predicate FirstProfileAt(profiles: seq<UserProfile>, uid: string, j: int) {
    0 <= j < |profiles| && profiles[j].userUid == uid
    && forall k :: 0 <= k < j ==> profiles[k].userUid != uid
  }

  /** The user `find` selects by exact username. */
  function FindUser(users: seq<User>, name: string): (r: Option<nat>)
    ensures r.Some? ==> FirstUserAt(users, name, r.value)
    ensures r.None? ==> forall k :: 0 <= k < |users| ==> users[k].username != name
  {
    FindFirst(users, (u: User) => u.username == name)
  }

  /** The profile `find` selects by owner uid. */
  function FindProfile(profiles: seq<UserProfile>, uid: string): (r: Option<nat>)
    ensures r.Some? ==> FirstProfileAt(profiles, uid, r.value)
    ensures r.None? ==> forall k :: 0 <= k < |profiles| ==> profiles[k].userUid != uid
  {
    FindFirst(profiles, (p: UserProfile) => p.userUid == uid)
  }

  /** The last step of `validateUser`: the age rule applied to a joined user and profile. */
  function AgeVerdict(user: User, profile: UserProfile, today: Today): (r: ValidationResult)
    ensures Age(AsConstructed(profile.birthdate), today) >= AGE_LIMIT ==>
      r == Invalid(AuthError(FORBIDDEN, TooOldMessage(Age(AsConstructed(profile.birthdate), today))))
    ensures Age(AsConstructed(profile.birthdate), today) < AGE_LIMIT ==>
      r == Valid(ValidatedUser(user.uid, user.username, Age(AsConstructed(profile.birthdate), today),
                               profile.address))
  {
    var age := Age(AsConstructed(profile.birthdate), today);
    if age >= AGE_LIMIT then Invalid(AuthError(FORBIDDEN, TooOldMessage(age)))
    else Valid(ValidatedUser(user.uid, user.username, age, profile.address))
  }

  /** `validateUser(username)` on the outcome of the two fetches, at date `today`. A failed
      fetch throws; every other outcome is a returned verdict. */
  function ValidateUser(fetch: FetchOutcome, username: string, today: Today)
    : (r: Result<ValidationResult, string>)
    ensures fetch.FetchFailed? ==> r == Failure(FETCH_USER_DATA_FAILED)
    ensures fetch.Fetched? ==> r.Success?
    ensures fetch.Fetched? && (forall k :: 0 <= k < |fetch.users| ==> fetch.users[k].username != username)
      ==> r == Success(Invalid(AuthError(NOT_FOUND, USER_NOT_FOUND)))
    ensures forall i :: (fetch.Fetched? && FirstUserAt(fetch.users, username, i)
      && (forall k :: 0 <= k < |fetch.profiles| ==> fetch.profiles[k].userUid != fetch.users[i].uid)
      ==> r == Success(Invalid(AuthError(NOT_FOUND, USER_PROFILE_NOT_FOUND))))
    ensures forall i, j :: (fetch.Fetched? && FirstUserAt(fetch.users, username, i)
      && FirstProfileAt(fetch.profiles, fetch.users[i].uid, j)
      && Age(AsConstructed(fetch.profiles[j].birthdate), today) >= AGE_LIMIT
      ==> r == Success(Invalid(AuthError(FORBIDDEN,
                TooOldMessage(Age(AsConstructed(fetch.profiles[j].birthdate), today))))))
    ensures forall i, j :: (fetch.Fetched? && FirstUserAt(fetch.users, username, i)
      && FirstProfileAt(fetch.profiles, fetch.users[i].uid, j)
      && Age(AsConstructed(fetch.profiles[j].birthdate), today) < AGE_LIMIT
      ==> r == Success(Valid(ValidatedUser(fetch.users[i].uid, username,
                Age(AsConstructed(fetch.profiles[j].birthdate), today), fetch.profiles[j].address))))
  {
    match fetch
    case FetchFailed => Failure(FETCH_USER_DATA_FAILED)
    case Fetched(users, profiles) =>
      match FindUser(users, username)
      case None => Success(Invalid(AuthError(NOT_FOUND, USER_NOT_FOUND)))
      case Some(i) =>
        var user := users[i];
        match FindProfile(profiles, user.uid)
        case None => Success(Invalid(AuthError(NOT_FOUND, USER_PROFILE_NOT_FOUND)))
        case Some(j) => Success(AgeVerdict(user, profiles[j], today))
  }

  /** `isUserUnder10`: true exactly for a valid verdict; a failed fetch still throws. */
  function IsUserUnder10(fetch: FetchOutcome, username: string, today: Today): (r: Result<bool, string>)
    ensures r.Failure? <==> fetch.FetchFailed?
    ensures r.Failure? ==> r.error == FETCH_USER_DATA_FAILED
    ensures r.Success? ==> (r.value <==> ValidateUser(fetch, username, today).value.IsValid())
  {
    match ValidateUser(fetch, username, today)
    case Failure(e) => Failure(e)
    case Success(v) => Success(v.IsValid())
  }

  /** `getUserInfo`: the validated user when the verdict is valid, `null` otherwise. */
  function GetUserInfo(fetch: FetchOutcome, username: string, today: Today)
    : (r: Result<Option<ValidatedUser>, string>)
    ensures r.Failure? <==> fetch.FetchFailed?
    ensures r.Failure? ==> r.error == FETCH_USER_DATA_FAILED
    ensures r.Success? ==> (r.value.Some? <==> IsUserUnder10(fetch, username, today) == Success(true))
    ensures r.Success? && r.value.Some? ==>
      ValidateUser(fetch, username, today) == Success(Valid(r.value.value))
  {
    match ValidateUser(fetch, username, today)
    case Failure(e) => Failure(e)
    case Success(v) => Success(if v.Valid? then Some(v.user) else None)
  }

  /** An admitted user is under ten and is the first user listed under the requested name. */
  lemma ValidMeansUnderTen(fetch: FetchOutcome, username: string, today: Today)
    requires ValidateUser(fetch, username, today).Success?
    requires ValidateUser(fetch, username, today).value.Valid?
    ensures ValidateUser(fetch, username, today).value.user.age < AGE_LIMIT
    ensures ValidateUser(fetch, username, today).value.user.username == username
    ensures exists i :: (FirstUserAt(fetch.users, username, i)
      && fetch.users[i].uid == ValidateUser(fetch, username, today).value.user.uid)
  {
  }

  /** The data of the two example lookups below. */
  function ExampleFetch(): FetchOutcome {
    Fetched([User("1", "charlie.brown"), User("3", "teen.user")],
             [UserProfile("1", "123 Peanuts St", Date(2018, 3, 1)),
              UserProfile("3", "789 Teen St", Date(2009, 3, 10))])
  }

  /** A child of eight is admitted with the profile's address. */
  lemma ChildAdmitted()
    ensures ValidateUser(ExampleFetch(), "charlie.brown", Date(2026, 10, 10))
         == Success(Valid(ValidatedUser("1", "charlie.brown", 8, "123 Peanuts St")))
  {
  }

  /** A seventeen-year-old is refused with a message naming that age. */
  lemma TeenRefused()
    ensures ValidateUser(ExampleFetch(), "teen.user", Date(2026, 10, 10))
         == Success(Invalid(AuthError(FORBIDDEN, "User is too old: 17 years old")))
  {
    assert Decimal.Show(17) == "17" by { assert Decimal.Show(1) == "1"; }
    assert TooOldMessage(17) == "User is too old: " + "17" + " years old";
    assert "User is too old: " + "17" + " years old" == "User is too old: 17 years old";
  }
}

=== FILE: common.dfy ===
/** Optional values and results shared by the model, and a first-match search. */
module Common {

  /** An optional value: a JavaScript `undefined`/`null` or an absent key is `None`. */
  datatype Option<+T> = None | Some(value: T)

  /** The outcome of an operation that may throw: `Failure` carries the thrown message. */
  datatype Result<+T, +E> = Success(value: T) | Failure(error: E)

  /** Index of the first element of `s` satisfying `p`, as `Array.prototype.find` selects it. */
  function FindFirst<T>(s: seq<T>, p: T -> bool): (r: Option<nat>)
    ensures r.Some? ==> r.value < |s| && p(s[r.value])
    ensures r.Some? ==> forall k :: 0 <= k < r.value ==> !p(s[k])
    ensures r.None? ==> forall k :: 0 <= k < |s| ==> !p(s[k])
  {
    if |s| == 0 then None
    else if p(s[0]) then Some(0)
    else match FindFirst(s[1..], p)
      case None => None
      case Some(i) => Some(i + 1)
  }
}

=== FILE: decimal.dfy ===
/** Decimal rendering of naturals, as a JavaScript template literal prints an integral number
    below 10^21 (from 10^21 up it switches to exponent form). */
module Decimal {

  predicate IsDigit(c: char) {
    '0' <= c <= '9'
  }

  predicate AllDigits(s: string) {
    forall i :: 0 <= i < |s| ==> IsDigit(s[i])
  }

  function DigitChar(d: nat): (c: char)
    requires d < 10
    ensures IsDigit(c)
  {
    "0123456789"[d]
  }

  function DigitValue(c: char): (d: nat)
    requires IsDigit(c)
    ensures d < 10
  {
    (c as int - '0' as int) as nat
  }

  /** The shortest decimal numeral of `n`: no sign, no leading zero. */
  function Show(n: nat): (s: string)
    ensures 1 <= |s|
    ensures AllDigits(s)
    ensures |s| > 1 ==> s[0] != '0'
  {
    if n < 10 then [DigitChar(n)] else Show(n / 10) + [DigitChar(n % 10)]
  }

  /** The number a string of digits denotes. */
  function ValueOf(s: string): nat
    requires AllDigits(s)
  {
    if |s| == 0 then 0 else ValueOf(s[..|s| - 1]) * 10 + DigitValue(s[|s| - 1])
  }

  lemma DigitRoundTrip(d: nat)
    requires d < 10
    ensures DigitValue(DigitChar(d)) == d
  {
  }

  /** Reading back a rendered numeral gives the number that was rendered. */
  lemma {:induction false} ValueOfShow(n: nat)
    ensures ValueOf(Show(n)) == n
  {
    DigitRoundTrip(n % 10);
    if n < 10 {
      assert Show(n)[..0] == [];
    } else {
      var s := Show(n);
      assert s[..|s| - 1] == Show(n / 10);
      ValueOfShow(n / 10);
    }
  }

  /** Distinct numbers render as distinct numerals. */
  lemma ShowInjective(a: nat, b: nat)
    requires Show(a) == Show(b)
    ensures a == b
  {
    ValueOfShow(a);
    ValueOfShow(b);
  }
}

=== FILE: letters.dfy ===
/** The in-memory letter queue: letters wait in `pending` until a flush moves them to `sent`. */
module Letters {

  /** A letter identifier. The service mints uuid strings; the model mints serial numbers. */
  type LetterId = nat

  datatype Letter = Letter(id: LetterId, username: string, address: string, message: string)

  /** What a submitter provides: a letter without its identifier. */
  datatype LetterData = LetterData(username: string, address: string, message: string)

  /** The queue state. `nextId` is the fresh-identifier supply standing in for uuid generation. */
  datatype Queue = Queue(pending: seq<Letter>, sent: seq<Letter>, nextId: LetterId)

  /** Every letter the queue holds, waiting or already sent. */
  function Held(q: Queue): seq<Letter> {
    q.pending + q.sent
  }

  /** A freshly constructed service holds no letters. */
  function Init(): (q: Queue)
    ensures q.pending == [] && q.sent == []
    ensures |Held(q)| == 0
  {
    Queue([], [], 0)
  }

  /** `create`: mint a letter from the submitter's data and append it to the pending list. */
  function Create(q: Queue, data: LetterData): (res: (Queue, Letter))
    ensures res.1.username == data.username
    ensures res.1.address == data.address
    ensures res.1.message == data.message
    ensures res.0.pending == q.pending + [res.1]
    ensures res.0.sent == q.sent
    ensures q.nextId <= res.1.id < res.0.nextId
    ensures multiset(Held(res.0)) == multiset(Held(q)) + multiset{res.1}
  {
    var letter := Letter(q.nextId, data.username, data.address, data.message);
    (q.(pending := q.pending + [letter], nextId := q.nextId + 1), letter)
  }

  /** `createBatch`: append ready-made letters, identifiers included, and hand them back. */
  function CreateBatch(q: Queue, letters: seq<Letter>): (res: (Queue, seq<Letter>))
    ensures res.1 == letters
    ensures res.0.pending == q.pending + letters
    ensures res.0.sent == q.sent
    ensures multiset(Held(res.0)) == multiset(Held(q)) + multiset(letters)
    ensures res.0.nextId == q.nextId
  {
    (q.(pending := q.pending + letters), letters)
  }

  /** `sendPendingLetters`: move every pending letter, in order, to the end of `sent` and
      return everything sent so far. */
  function SendPending(q: Queue): (res: (Queue, seq<Letter>))
    ensures res.0.pending == []
    ensures res.0.sent == q.sent + q.pending
    ensures q.sent <= res.1 && res.1 == res.0.sent
    ensures |res.1| == |q.sent| + |q.pending|
    ensures multiset(Held(res.0)) == multiset(Held(q))
    ensures res.0.nextId == q.nextId
  {
    var sent := q.sent + q.pending;
    (q.(pending := [], sent := sent), sent)
  }

  /** With nothing pending a flush changes nothing and returns the sent letters as they were. */
  lemma SendEmptyIsNoOp(q: Queue)
    requires q.pending == []
    ensures SendPending(q).0 == q
    ensures SendPending(q).1 == q.sent
  {
  }

  /** Two flushes in a row: the second one moves nothing. */
  lemma SendTwice(q: Queue)
    ensures SendPending(SendPending(q).0) == SendPending(q)
  {
    var once := SendPending(q).0;
    assert once.sent + once.pending == once.sent;
  }

  /** Successive `create` calls, one per element of `datas`, in order. */
  function CreateAll(q: Queue, datas: seq<LetterData>): (res: (Queue, seq<Letter>))
    ensures |res.1| == |datas|
    ensures forall i :: 0 <= i < |datas| ==>
      res.1[i].username == datas[i].username && res.1[i].address == datas[i].address
      && res.1[i].message == datas[i].message
    ensures res.0.pending == q.pending + res.1
    ensures res.0.sent == q.sent
    ensures forall i :: 0 <= i < |res.1| ==> q.nextId <= res.1[i].id < res.0.nextId
    ensures forall i, j :: 0 <= i < j < |res.1| ==> res.1[i].id < res.1[j].id
    decreases |datas|
  {
    if |datas| == 0 then (q, [])
    else
      var (q1, letter) := Create(q, datas[0]);
      var (q2, rest) := CreateAll(q1, datas[1..]);
      (q2, [letter] + rest)
  }

  /** Letters created by successive calls carry pairwise distinct identifiers. */
  lemma CreatedIdsDistinct(q: Queue, datas: seq<LetterData>, i: nat, j: nat)
    requires i < j < |datas|
    ensures CreateAll(q, datas).1[i].id != CreateAll(q, datas).1[j].id
  {
  }

  /** The queue operations a caller can perform. */
  datatype Op = CreateOp(data: LetterData) | BatchOp(letters: seq<Letter>) | SendOp

  function Step(q: Queue, op: Op): Queue {
    match op
    case CreateOp(data) => Create(q, data).0
    case BatchOp(letters) => CreateBatch(q, letters).0
    case SendOp => SendPending(q).0
  }

  function Run(q: Queue, ops: seq<Op>): Queue
    decreases |ops|
  {
    if |ops| == 0 then q else Run(Step(q, ops[0]), ops[1..])
  }

  /** Over any sequence of operations, what was sent stays sent, in place and in order. */
  lemma {:induction false} SentOnlyGrows(q: Queue, ops: seq<Op>)
    ensures q.sent <= Run(q, ops).sent
    decreases |ops|
  {
    if |ops| > 0 {
      var q1 := Step(q, ops[0]);
      assert q.sent <= q1.sent;
      SentOnlyGrows(q1, ops[1..]);
    }
  }

  /** The identifier supply never runs backwards. */
  lemma {:induction false} NextIdGrows(q: Queue, ops: seq<Op>)
    ensures q.nextId <= Run(q, ops).nextId
    decreases |ops|
  {
    if |ops| > 0 {
      NextIdGrows(Step(q, ops[0]), ops[1..]);
    }
  }

  /** A letter created after any further operations has a larger identifier than one
      created before them. */
  lemma CreatedThenLater(q: Queue, d1: LetterData, ops: seq<Op>, d2: LetterData)
    ensures Create(q, d1).1.id < Create(Run(Create(q, d1).0, ops), d2).1.id
  {
    NextIdGrows(Create(q, d1).0, ops);
  }

  /** The letters minted by the `create` calls of a run of operations, in order. Their
      identifiers are fresh and strictly increasing, whatever batches and flushes come between. */
  function Minted(q: Queue, ops: seq<Op>): (ls: seq<Letter>)
    ensures forall i :: 0 <= i < |ls| ==> q.nextId <= ls[i].id < Run(q, ops).nextId
    ensures forall i, j :: 0 <= i < j < |ls| ==> ls[i].id < ls[j].id
    decreases |ops|
  {
    if |ops| == 0 then []
    else
      var q1 := Step(q, ops[0]);
      var rest := Minted(q1, ops[1..]);
      NextIdGrows(q1, ops[1..]);
      if ops[0].CreateOp? then [Create(q, ops[0].data).1] + rest else rest
  }

  /** Letters minted by `create` anywhere in a run carry pairwise distinct identifiers. */
  lemma MintedIdsDistinct(q: Queue, ops: seq<Op>, i: nat, j: nat)
    requires i < j < |Minted(q, ops)|
    ensures Minted(q, ops)[i].id != Minted(q, ops)[j].id
  {
  }

  /** Over any sequence of operations no letter is lost: every letter held before, with its
      multiplicity, is still held afterwards. */
  lemma {:induction false} NothingLost(q: Queue, ops: seq<Op>)
    ensures multiset(Held(q)) <= multiset(Held(Run(q, ops)))
    decreases |ops|
  {
    if |ops| > 0 {
      var q1 := Step(q, ops[0]);
      assert multiset(Held(q)) <= multiset(Held(q1));
      NothingLost(q1, ops[1..]);
    }
  }

  /** Over flushes alone nothing is lost, duplicated or added. */
  lemma {:induction false} FlushesConserve(q: Queue, ops: seq<Op>)
    requires forall k :: 0 <= k < |ops| ==> ops[k].SendOp?
    ensures multiset(Held(Run(q, ops))) == multiset(Held(q))
    decreases |ops|
  {
    if |ops| > 0 {
      var q1 := Step(q, ops[0]);
      assert multiset(Held(q1)) == multiset(Held(q));
      assert forall k :: 0 <= k < |ops[1..]| ==> ops[1..][k] == ops[k + 1];
      FlushesConserve(q1, ops[1..]);
    }
  }
}

=== FILE: requests.dfy ===
/** The body schema of a letter submission: three strings, each non-empty and bounded. */
module Requests {
  import opened Common

  datatype PostLetterRequest = PostLetterRequest(username: string, address: string, message: string)

  datatype Field = Username | Address | Message

  /** A violated bound: the string is shorter than the minimum or longer than the maximum. */
  datatype Issue = TooSmall(field: Field) | TooBig(field: Field)

  const MIN_LENGTH := 1
  const USERNAME_MAX := 25
  const ADDRESS_MAX := 50
  const MESSAGE_MAX := 100

  function MaxLength(f: Field): nat {
    match f
    case Username => USERNAME_MAX
    case Address => ADDRESS_MAX
    case Message => MESSAGE_MAX
  }

  function FieldValue(req: PostLetterRequest, f: Field): string {
    match f
    case Username => req.username
    case Address => req.address
    case Message => req.message
  }

  /** Whether one field's string is within its bounds. */
  predicate InBounds(req: PostLetterRequest, f: Field) {
    MIN_LENGTH <= |FieldValue(req, f)| <= MaxLength(f)
  }

  /** The issues one string field raises: its `.min` check, then its `.max` check. */
  function FieldIssues(s: string, f: Field): (issues: seq<Issue>)
    ensures issues == [] <==> MIN_LENGTH <= |s| <= MaxLength(f)
    ensures forall x :: x in issues ==> x.field == f
    ensures TooSmall(f) in issues <==> |s| < MIN_LENGTH
    ensures TooBig(f) in issues <==> |s| > MaxLength(f)
    ensures |issues| <= 1
  {
    (if |s| < MIN_LENGTH then [TooSmall(f)] else [])
    + (if |s| > MaxLength(f) then [TooBig(f)] else [])
  }

  /** `issues` reports exactly the bounds that field `f` of `req` violates. */
  predicate ReportsField(issues: seq<Issue>, req: PostLetterRequest, f: Field) {
    && (TooSmall(f) in issues <==> |FieldValue(req, f)| < MIN_LENGTH)
    && (TooBig(f) in issues <==> |FieldValue(req, f)| > MaxLength(f))
  }

  /** `PostLetterRequestSchema.safeParse`: the request itself when every field is within
      bounds, otherwise every issue, field by field in declaration order. */
  function SafeParse(req: PostLetterRequest): (r: Result<PostLetterRequest, seq<Issue>>)
    ensures r.Success? <==> InBounds(req, Username) && InBounds(req, Address) && InBounds(req, Message)
    ensures r.Success? ==> r.value == req
    ensures r.Failure? ==> |r.error| > 0
    ensures r.Failure? ==>
      && ReportsField(r.error, req, Username)
      && ReportsField(r.error, req, Address)
      && ReportsField(r.error, req, Message)
  {
    var u := FieldIssues(req.username, Username);
    var a := FieldIssues(req.address, Address);
    var m := FieldIssues(req.message, Message);
    var issues := u + a + m;
    if issues == [] then Success(req) else Failure(issues)
  }

  /** Acceptance depends on the three lengths only: requests whose fields have the same
      lengths are accepted or rejected together. */
  lemma OnlyLengthsMatter(a: PostLetterRequest, b: PostLetterRequest)
    requires |a.username| == |b.username| && |a.address| == |b.address|
    requires |a.message| == |b.message|
    ensures SafeParse(a).Success? <==> SafeParse(b).Success?
  {
  }
}

=== FILE: scheduler.dfy ===
/** The dispatch scheduler: a two-state machine (stopped / running) around a cron job that
    periodically flushes the letter queue, plus the check routine each fire runs. */
module Scheduler {
  import opened Common
  import Decimal
  import Letters

  datatype Config = Config(intervalMinutes: nat, enabled: bool)

  /** A `Partial<SchedulerConfig>`: a `None` field is a key the caller left out. */
  datatype ConfigPatch = ConfigPatch(intervalMinutes: Option<nat>, enabled: Option<bool>)

  /** A task handed to the cron library, identified by its expression. */
  datatype CronJob = CronJob(expression: string)

  /** What the scheduler asked of the cron library, in order. */
  datatype CronEvent = Scheduled(expression: string) | Cancelled(expression: string)

  /** The service's fields. `log` records every scheduling and cancelling of a cron job;
      time stamps are opaque integers supplied by the caller. */
  datatype SchedulerState = SchedulerState(
    running: bool,
    job: Option<CronJob>,
    config: Config,
    lastCheck: Option<int>,
    totalLettersProcessed: nat,
    log: seq<CronEvent>)

  const DEFAULT_INTERVAL_MINUTES: nat := 15
  const DEFAULT_ENABLED: bool := true
  const CRON_PREFIX := "0 */"
  const CRON_SUFFIX := " * * * *"

  /** Fields present in `patch` win; the others keep their value in `c`. */
  function Merge(c: Config, patch: ConfigPatch): (r: Config)
    ensures patch.intervalMinutes.Some? ==> r.intervalMinutes == patch.intervalMinutes.value
    ensures patch.intervalMinutes.None? ==> r.intervalMinutes == c.intervalMinutes
    ensures patch.enabled.Some? ==> r.enabled == patch.enabled.value
    ensures patch.enabled.None? ==> r.enabled == c.enabled
  {
    Config(
      match patch.intervalMinutes case Some(n) => n case None => c.intervalMinutes,
      match patch.enabled case Some(b) => b case None => c.enabled)
  }

  /** Applying the same patch again changes nothing. */
  lemma MergeIdempotent(c: Config, patch: ConfigPatch)
    ensures Merge(Merge(c, patch), patch) == Merge(c, patch)
  {
  }

  /** The six-field cron expression firing at second 0 of every `minutes`-th minute. */
  function CronExpression(minutes: nat): (e: string)
    ensures |e| > |CRON_PREFIX| + |CRON_SUFFIX|
    ensures e[..|CRON_PREFIX|] == CRON_PREFIX
    ensures e[|e| - |CRON_SUFFIX|..] == CRON_SUFFIX
  {
    CRON_PREFIX + Decimal.Show(minutes) + CRON_SUFFIX
  }

  /** Reads the interval N back out of an expression built by `CronExpression(N)`. */
  function CronInterval(e: string): Option<nat> {
    if |e| > |CRON_PREFIX| + |CRON_SUFFIX|
       && e[..|CRON_PREFIX|] == CRON_PREFIX
       && e[|e| - |CRON_SUFFIX|..] == CRON_SUFFIX
       && Decimal.AllDigits(e[|CRON_PREFIX|..|e| - |CRON_SUFFIX|])
    then Some(Decimal.ValueOf(e[|CRON_PREFIX|..|e| - |CRON_SUFFIX|]))
    else None
  }

  /** The expression handed to the cron library names exactly the configured interval. */
  lemma CronExpressionRoundTrip(minutes: nat)
    ensures CronInterval(CronExpression(minutes)) == Some(minutes)
  {
    var e := CronExpression(minutes);
    var digits := Decimal.Show(minutes);
    assert e[|CRON_PREFIX|..|e| - |CRON_SUFFIX|] == digits;
    Decimal.ValueOfShow(minutes);
  }

  /** The expression for the default interval. */
  lemma DefaultCronExpression()
    ensures CronExpression(DEFAULT_INTERVAL_MINUTES) == "0 */15 * * * *"
  {
    assert Decimal.Show(15) == "15" by { assert Decimal.Show(1) == "1"; }
    assert CronExpression(15) == "0 */" + "15" + " * * * *";
  }

  /** The expression for a thirty-minute interval. */
  lemma HalfHourCronExpression()
    ensures CronExpression(30) == "0 */30 * * * *"
  {
    assert Decimal.Show(30) == "30" by { assert Decimal.Show(3) == "3"; }
    assert CronExpression(30) == "0 */" + "30" + " * * * *";
  }

  /** Distinct intervals give distinct expressions. */
  lemma CronExpressionInjective(a: nat, b: nat)
    requires CronExpression(a) == CronExpression(b)
    ensures a == b
  {
    CronExpressionRoundTrip(a);
    CronExpressionRoundTrip(b);
  }

  /** The constructor: defaults overridden by whatever the caller supplied. */
  function Init(patch: ConfigPatch): (s: SchedulerState)
    ensures !s.running && s.job.None? && s.lastCheck.None?
    ensures s.totalLettersProcessed == 0 && s.log == []
    ensures s.config.intervalMinutes ==
      (if patch.intervalMinutes.Some? then patch.intervalMinutes.value else DEFAULT_INTERVAL_MINUTES)
    ensures s.config.enabled == (if patch.enabled.Some? then patch.enabled.value else DEFAULT_ENABLED)
  {
    SchedulerState(false, None, Merge(Config(DEFAULT_INTERVAL_MINUTES, DEFAULT_ENABLED), patch),
                   None, 0, [])
  }

  /** `start`: schedule one cron job unless already running or disabled. */
  function Start(s: SchedulerState): (r: SchedulerState)
    ensures s.running || !s.config.enabled ==> r == s
    ensures !s.running && s.config.enabled ==>
      && r.running
      && r.job == Some(CronJob(CronExpression(s.config.intervalMinutes)))
      && r.log == s.log + [Scheduled(CronExpression(s.config.intervalMinutes))]
      && r.config == s.config && r.lastCheck == s.lastCheck
      && r.totalLettersProcessed == s.totalLettersProcessed
  {
    if s.running then s
    else if !s.config.enabled then s
    else
      var expression := CronExpression(s.config.intervalMinutes);
      s.(job := Some(CronJob(expression)), running := true, log := s.log + [Scheduled(expression)])
  }

  /** `stop`: cancel the job if there is one; always ends stopped. */
  function Stop(s: SchedulerState): (r: SchedulerState)
    ensures !r.running && r.job.None?
    ensures s.job.Some? ==> r.log == s.log + [Cancelled(s.job.value.expression)]
    ensures s.job.None? ==> r.log == s.log
    ensures r.config == s.config && r.lastCheck == s.lastCheck
    ensures r.totalLettersProcessed == s.totalLettersProcessed
  {
    var log := match s.job
      case Some(j) => s.log + [Cancelled(j.expression)]
      case None => s.log;
    s.(job := None, running := false, log := log)
  }

  /** `updateConfig`: merge the patch; a running scheduler is stopped and, if the merged
      configuration is enabled, started again with it. */
  function UpdateConfig(s: SchedulerState, patch: ConfigPatch): (r: SchedulerState)
    ensures r.config == Merge(s.config, patch)
    ensures !s.running ==> r.running == s.running && r.job == s.job && r.log == s.log
    ensures s.running && r.config.enabled ==>
      r.running && r.job == Some(CronJob(CronExpression(r.config.intervalMinutes)))
    ensures s.running && !r.config.enabled ==> !r.running && r.job.None?
    ensures s.running ==>
      r.log == s.log
        + (if s.job.Some? then [Cancelled(s.job.value.expression)] else [])
        + (if r.config.enabled then [Scheduled(CronExpression(r.config.intervalMinutes))] else [])
    ensures r.lastCheck == s.lastCheck && r.totalLettersProcessed == s.totalLettersProcessed
  {
    var wasRunning := s.running;
    var stopped := if wasRunning then Stop(s) else s;
    var merged := stopped.(config := Merge(stopped.config, patch));
    if wasRunning && merged.config.enabled then Start(merged) else merged
  }

  /** What `getStatus` reports. */
  datatype Status = Status(isRunning: bool, nextRun: Option<int>, lastCheck: Option<int>,
                           totalEmailsProcessed: nat)

  /** `getStatus` at time `now` (milliseconds): a next run is reported exactly while running,
      one interval after `now`. */
  function GetStatus(s: SchedulerState, now: int): (st: Status)
    ensures st.isRunning == s.running
    ensures st.nextRun.Some? <==> s.running
    ensures st.nextRun.Some? ==> st.nextRun.value > now || s.config.intervalMinutes == 0
    ensures st.lastCheck == s.lastCheck && st.totalEmailsProcessed == s.totalLettersProcessed
  {
    Status(s.running,
           if s.running then Some(now + s.config.intervalMinutes * 60 * 1000) else None,
           s.lastCheck, s.totalLettersProcessed)
  }

  /** What `getStatistics` reports. */
  datatype Statistics = Statistics(totalEmailsProcessed: nat, isRunning: bool,
                                   lastCheck: Option<int>, config: Config)

  /** `getStatistics` agrees with `getStatus` and adds the configuration. */
  function GetStatistics(s: SchedulerState): (st: Statistics)
    ensures forall now :: (GetStatus(s, now).isRunning == st.isRunning
      && GetStatus(s, now).lastCheck == st.lastCheck
      && GetStatus(s, now).totalEmailsProcessed == st.totalEmailsProcessed)
    ensures st.config == s.config
  {
    Statistics(s.totalLettersProcessed, s.running, s.lastCheck, s.config)
  }

  /** How the queue's flush went: it returned, it threw an `Error` with a message, or it
      threw something that is not an `Error`. */
  datatype FlushOutcome = Flushed | ThrewError(message: string) | ThrewOther

  const UNKNOWN_ERROR := "Unknown error"

  datatype CheckResult = CheckResult(success: bool, newLettersCount: nat, error: Option<string>)

  /** `checkAndProcessEmails` (also what `runManualCheck` and every cron fire run) at time `now`:
      record the check, flush the queue if anything is pending, and count what was flushed.
      A failed flush leaves the queue as it was and is reported, never propagated. */
  function CheckAndProcess(s: SchedulerState, q: Letters.Queue, flush: FlushOutcome, now: int)
    : (res: (SchedulerState, Letters.Queue, CheckResult))
    ensures res.0.lastCheck == Some(now)
    ensures res.0.running == s.running && res.0.job == s.job && res.0.config == s.config
    ensures res.0.log == s.log
    ensures q.pending == [] ==>
      res.1 == q && res.2 == CheckResult(true, 0, None)
      && res.0.totalLettersProcessed == s.totalLettersProcessed
    ensures q.pending != [] && flush.Flushed? ==>
      && res.1 == Letters.SendPending(q).0
      && res.2 == CheckResult(true, |q.pending|, None)
      && res.0.totalLettersProcessed == s.totalLettersProcessed + |q.pending|
    ensures q.pending != [] && !flush.Flushed? ==>
      && res.1 == q
      && res.0.totalLettersProcessed == s.totalLettersProcessed
      && !res.2.success && res.2.newLettersCount == 0
      && res.2.error == Some(if flush.ThrewError? then flush.message else UNKNOWN_ERROR)
    ensures res.2.success <==> res.1.pending == []
    ensures res.0.totalLettersProcessed - |res.1.sent| == s.totalLettersProcessed - |q.sent|
  {
    var checked := s.(lastCheck := Some(now));
    var count := |q.pending|;
    if count == 0 then
      (checked, q, CheckResult(true, 0, None))
    else
      match flush
      case Flushed =>
        (checked.(totalLettersProcessed := s.totalLettersProcessed + count),
         Letters.SendPending(q).0, CheckResult(true, count, None))
      case ThrewError(message) => (checked, q, CheckResult(false, 0, Some(message)))
      case ThrewOther => (checked, q, CheckResult(false, 0, Some(UNKNOWN_ERROR)))
  }

  /** Jobs scheduled minus jobs cancelled, reading the log left to right. */
  function LiveJobs(log: seq<CronEvent>): int {
    if |log| == 0 then 0
    else LiveJobs(log[..|log| - 1]) + (if log[|log| - 1].Scheduled? then 1 else -1)
  }

  /** The scheduler's invariant: it runs exactly when it holds a job, that job is the one
      most recently handed to the cron library and fires at the configured interval, and
      every other job ever scheduled has been cancelled. */
  ghost predicate Valid(s: SchedulerState) {
    && (s.running <==> s.job.Some?)
    && LiveJobs(s.log) == (if s.running then 1 else 0)
    && (s.job.Some? ==>
          && s.job.value.expression == CronExpression(s.config.intervalMinutes)
          && |s.log| > 0 && s.log[|s.log| - 1] == Scheduled(s.job.value.expression))
  }

  lemma InitValid(patch: ConfigPatch)
    ensures Valid(Init(patch))
  {
  }

  /** Starting twice schedules a single job. */
  lemma StartIdempotent(s: SchedulerState)
    ensures Start(Start(s)) == Start(s)
  {
  }

  lemma StartPreservesValid(s: SchedulerState)
    requires Valid(s)
    ensures Valid(Start(s))
  {
  }

  lemma StopPreservesValid(s: SchedulerState)
    requires Valid(s)
    ensures Valid(Stop(s))
  {
  }

  lemma UpdateConfigPreservesValid(s: SchedulerState, patch: ConfigPatch)
    requires Valid(s)
    ensures Valid(UpdateConfig(s, patch))
  {
  }

  /** The operations on the running system: scheduler commands, plus the letters that the
      submission path adds to the queue between checks. */
  datatype Command =
    | StartCmd
    | StopCmd
    | UpdateCmd(patch: ConfigPatch)
    | CheckCmd(flush: FlushOutcome, now: int)
    | SubmitCmd(data: Letters.LetterData)
    | BatchCmd(letters: seq<Letters.Letter>)

  datatype System = System(scheduler: SchedulerState, queue: Letters.Queue)

  function Exec(sys: System, c: Command): System {
    match c
    case StartCmd => sys.(scheduler := Start(sys.scheduler))
    case StopCmd => sys.(scheduler := Stop(sys.scheduler))
    case UpdateCmd(patch) => sys.(scheduler := UpdateConfig(sys.scheduler, patch))
    case CheckCmd(flush, now) =>
      var (s, q, _) := CheckAndProcess(sys.scheduler, sys.queue, flush, now);
      System(s, q)
    case SubmitCmd(data) => sys.(queue := Letters.Create(sys.queue, data).0)
    case BatchCmd(letters) => sys.(queue := Letters.CreateBatch(sys.queue, letters).0)
  }

  function ExecAll(sys: System, cs: seq<Command>): System
    decreases |cs|
  {
    if |cs| == 0 then sys else ExecAll(Exec(sys, cs[0]), cs[1..])
  }

  /** Whatever commands arrive, the scheduler keeps its invariant, and its counter grows by
      exactly the number of letters that its checks moved into `sent`. */
  lemma {:induction false} ExecAllPreserves(sys: System, cs: seq<Command>)
    requires Valid(sys.scheduler)
    ensures Valid(ExecAll(sys, cs).scheduler)
    ensures ExecAll(sys, cs).scheduler.totalLettersProcessed - |ExecAll(sys, cs).queue.sent|
         == sys.scheduler.totalLettersProcessed - |sys.queue.sent|
    decreases |cs|
  {
    if |cs| > 0 {
      var next := Exec(sys, cs[0]);
      match cs[0] {
        case StartCmd => StartPreservesValid(sys.scheduler);
        case StopCmd => StopPreservesValid(sys.scheduler);
        case UpdateCmd(patch) => UpdateConfigPreservesValid(sys.scheduler, patch);
        case CheckCmd(_, _) =>
        case SubmitCmd(_) =>
        case BatchCmd(_) =>
      }
      ExecAllPreserves(next, cs[1..]);
    }
  }

  /** From a freshly constructed scheduler and an empty queue, the counter equals the number
      of letters sent. */
  lemma CounterCountsSent(patch: ConfigPatch, cs: seq<Command>)
    ensures ExecAll(System(Init(patch), Letters.Init()), cs).scheduler.totalLettersProcessed
         == |ExecAll(System(Init(patch), Letters.Init()), cs).queue.sent|
  {
    InitValid(patch);
    ExecAllPreserves(System(Init(patch), Letters.Init()), cs);
  }
}
